=== FILE: README.md ===
# audioToText — a Dafny model of the transcription widget's logic

The widget listens to the microphone through the browser's speech
recognizer. It shows the interim transcript live and moves each final
utterance into a history panel. It also sends the utterance to a remote
translation service and shows the answer in a second panel.

This project models the sequential logic of `script.js` as pure functions
over immutable data:

- `JsStrings`: the `trim` the result handler applies. It strips the
  ECMAScript white space and line terminator code points from both ends.
- `Recognition`: the `onresult` handler. It splits one recognition event
  into the interim text and the final text, and decides whether a history
  entry is emitted. `Demux` is the handler's loop, proved equal to the
  recursive reference definitions `InterimOf` and `FinalOf`.
- `Translation`: the language pairing (`getTranslationCodes`) and the
  fallback of `translateText`. The remote endpoint is a function parameter
  from query to reply, and the reply covers every way the source can end.
- `Session`: the module-level variables of the script form one `State`.
  Every handler is a transition that returns the next state and the calls
  made on the recognizer (`StartRecognizer`, `StopRecognizer`), as a command
  log. `Step` dispatches one event, `Run` folds a trace, and the lemmas
  about traces state what holds over any sequence of events.

Calls into the browser (recognizer, `fetch`, DOM, clock) are parameters or
commands; nothing here performs I/O.

Two behaviours of the code are worth stating up front:

- The code never consults the HTTP status: it parses the body whatever the
  status and returns any truthy `translatedText` (`Translation.StatusIgnored`).
- A language change while recording switches `recognition.lang` in place,
  keeps recording and clears both panels (`Session.HandleLanguageChange`).

## Model

| member | source | states |
|---|---|---|
| `JsStrings.Trim` | script.js:70 | the result is the slice of the input left after removing white space at both ends: only white space lies outside it, and none is at either of its ends |
| `JsStrings.TrimUnique` | script.js:70 | that description determines the result: any such slice is the trimmed string |
| `JsStrings.TrimIdempotent` | script.js:70 | trimming twice is trimming once |
| `JsStrings.TrimDropsTrailingSpace` | script.js:66-70 | the one space appended after a non-empty trimmed transcript is exactly what `trim` removes |
| `Recognition.Demux` | script.js:63-68 | the handler's loop produces the interim text and the final text of the reference definitions over the results from `resultIndex` on, and produces empty texts when `resultIndex` is past the end |
| `Recognition.OnResult` | script.js:62-71 | the display gets the interim text; a history entry is emitted if and only if some result at or after `resultIndex` is final, and it is the trimmed final text |
| `Recognition.InterimAppend` | script.js:64-67 | the interim text of two runs of results is the concatenation of their interim texts, with no separator |
| `Recognition.FinalAppend` | script.js:64-66 | the final text of two runs of results is the concatenation of their final texts |
| `Recognition.FinalNonEmptyIffHasFinal` | script.js:66-70 | the final text is non-empty exactly when some result is final, which is what the truthiness test on it decides |
| `Recognition.FinalIsJoinPlusSpace` | script.js:66 | with at least one final result, the final text is the final transcripts joined by single spaces plus one trailing space |
| `Recognition.EarlierResultsIgnored` | script.js:64 | results before `resultIndex` never contribute to the display or the entry |
| `Recognition.EntryIsSpaceJoined` | script.js:66-70 | when every final transcript is non-empty with no white space at its ends, the entry is those transcripts joined by single spaces |
| `Recognition.BlankFinalsStillEmit` | script.js:66-70 | when the window has final results and all their transcripts are blank, an entry is still emitted, and it is the empty string |
| `Translation.TranslationCodes` | script.js:21-25 | the pair is always Spanish and English in some order, never the same language twice, with Spanish as source exactly for the tag `es-ES` |
| `Translation.CodesSwap` | script.js:21-25 | every other tag gets the pair of `es-ES` reversed |
| `Translation.QueryFor` | script.js:28-32 | the request carries the text unchanged and the pair of the given language |
| `Translation.ReplyText` | script.js:33-37 | the translated text when `responseData.translatedText` is truthy, otherwise the error text; the result is never empty |
| `Translation.TranslateText` | script.js:27-38 | the translated text the endpoint delivered for the query of this text and language pair, or exactly `Error al traducir`; it returns a string for every reply, so no failure escapes |
| `Translation.FailuresGiveErrorText` | script.js:33-36 | a rejected fetch or parse, a missing `responseData`, a missing `translatedText` and an empty `translatedText` all give the same error text |
| `Translation.StatusIgnored` | script.js:30-34 | the HTTP status has no effect on the outcome |
| `Session.Step` | script.js:53-188 | recognizer events before the recognizer exists change nothing; an existing recognizer is never lost; only a toggle or `onend` starts the recognizer, and only a toggle or `onerror` stops it; creating the recognizer sets it to the current language; `onstart` sets recording; `onerror` ends recording with one stop; `onend` restarts exactly when recording; a clear or a change to another language empties the display and both panels; a language change selects that language and leaves recording as it was |
| `Session.Init` | script.js:13-15 | the page starts not recording, in Spanish, with no recognizer and empty panels |
| `Session.CreateRecognizer` | script.js:48-51 | the recognizer is created in the current language, and nothing else changes |
| `Session.HandleStart` | script.js:53-60 | `onstart` sets recording, and nothing else in the state changes |
| `Session.StopRecognition` | script.js:120-126 | recording is false afterwards whatever it was before; the recognizer is told to stop exactly when it exists; it is never started; nothing else changes |
| `Session.HandleError` | script.js:73-76 | an error goes through `stopRecognition` and always ends recording |
| `Session.HandleEnd` | script.js:78-81 | `onend` restarts the recognizer exactly when recording is true, and changes no state |
| `Session.ToggleRecording` | script.js:85-93 | nothing happens without a recognizer; while recording it is `stopRecognition`; otherwise the recognizer gets the current language and one start, and recording stays false |
| `Session.ClearAll` | script.js:139-143 | the display is emptied and both panels return to their header alone; translations in flight and everything else are kept |
| `Session.AddToHistory` | script.js:145-157 | the original text goes to the head of its panel at once, and one translation in the current language is queued |
| `Session.HandleResult` | script.js:62-71 | the display gets the interim text; when a final result is present the handler is `addToHistory` of the entry on that state, so the entry heads the original panel and one translation of it in the current language is queued; otherwise only the display changes |
| `Session.SettleTranslation` | script.js:157-164 | a settling translation puts its text or the error text at the head of the translation panel and leaves the queue; pending translations may settle in any order |
| `Session.HandleLanguageChange` | script.js:168-188 | choosing the current language changes nothing; another language is set on the state and the live recognizer, recording is untouched, and the display and both panels are cleared |
| `Session.InitValid` | script.js:13-15 | the initial state satisfies the invariant |
| `Session.StepPreservesValid` | script.js:53-188 | every event keeps the invariant: only an existing recognizer records, and an existing recognizer's `lang` property is the selected language |
| `Session.RunPreservesValid` | script.js:53-93 | the invariant holds after any trace from a state that satisfies it |
| `Session.ReachableValid` | script.js:41-51 | every state reachable from page load satisfies the invariant |
| `Session.RecordingOnlyOnStart` | script.js:59 | recording becomes true only on `onstart` |
| `Session.StartOnlyFromToggleOrRestart` | script.js:78-93 | the recognizer is started only by a toggle while not recording or by `onend` while recording |
| `Session.OnEndRestartIffRecording` | script.js:73-81 | in a reachable state `onend` restarts exactly when recording, and never right after a stop or an error |
| `Session.StopIdempotent` | script.js:120-126 | a second stop leaves the state as the first left it |
| `Session.StoppedStaysStopped` | script.js:78-81 | from a stopped state and until `onstart`, recording stays false and every start issued comes from a toggle, so a stopped session is never resurrected |
| `Session.OriginalsMostRecentFirst` | script.js:153 | without clearing, the original panel holds the emitted texts most recent first, above its earlier content |
| `Session.StepQueue` | script.js:145-164 | one event's effect on the translation queue: the pending entries it leaves plus the one it settles are the entries it had plus the one it requests |
| `Session.EachOriginalOneTranslation` | script.js:145-164 | over any trace, clearing included, the pending translations at the end plus those settled along the way are, as a multiset, the pending ones at the start plus those requested: none is lost, duplicated or invented |
| `Session.RequestedAreEmitted` | script.js:145-157 | the translations requested along a trace are for the emitted history entries, one each, in emission order |
| `Session.TranslationsMostRecentFirst` | script.js:157-163 | without clearing, the translation panel holds the bubbles added along the trace in reverse order of settling, above its earlier content |
| `Session.StartThenStop` | script.js:85-93 | toggle, `onstart`, toggle takes an idle session to recording and back, with one start and one stop |
| `Session.SecondClickBeforeOnStartStartsAgain` | script.js:85-93 | a second click before `onstart` issues a second start rather than a stop |
| `Session.TranslationSurvivesClear` | script.js:139-164 | a translation requested before a clear still lands in the cleared translation panel |

## Left out

- The volume meter (script.js:95-116): floating-point RMS on audio samples driven by animation frames.
- Microphone acquisition and the `micAsked` flag in local storage (script.js:197-220): browser permission I/O. A failure there means the recognizer is never created, which the model expresses as `RecognizerCreated` never occurring.
- The unsupported-browser branch of `initializeRecognition` (script.js:42-47): the same as above. The `continuous` and `interimResults` settings (script.js:49-50) are configuration of the browser facility.
- The URL building and percent-encoding of the request (script.js:30-32): `Translation.Query` carries the parameters, not the URL string.
- A `translatedText` that is truthy but not a string, or a `responseData` that is not an object: the reply datatype models strings and missing values only.
- Status and button texts, CSS classes, the active language button, `resetUI`, bubble HTML, `setTimeout` fade-ins and `toLocaleTimeString` timestamps (script.js:54-58, 128-136, 148-154, 158-164, 171-173, 180-184): DOM rendering. Bubbles are modelled by their text.
- The error code shown by `onerror` (script.js:74) and closing the audio context (script.js:124-125): display and audio resources only.
- The history visibility toggle and the resize handler (script.js:191-194, 223-227): DOM layout.
- The panels' `<h3>` headers (script.js:141-142): `clearAll` resets each panel to its header, and `insertBefore(…, firstChild)` (script.js:153, 163) puts every later bubble ahead of it, so in document order the header follows the bubbles. The model keeps only the bubbles, most recent first, and drops the header.
- `Session.Step`: `RecognizerCreated` may occur more than once in a trace, although `initializeRecognition` runs at most once per page load (script.js:219, 236). Traces are thus a superset of the real ones, and every trace lemma holds for all of them.
- When the browser applies the recognizer's `lang` property: it does so at the next `start()`. After a language change while recording (script.js:176), the running session keeps listening in the old language until an `onend` restart or a toggle. Translations switch pair at once, because `addToHistory` reads the current language. The model tracks the property only, not the language the browser is listening in.
- What the browser does with a `start()` on a recognizer that is already started: the model logs the command and leaves the recognizer's reaction outside.
- Alternatives of a recognition result other than the first: the handler reads only `r[0]`.
- Any ordering of translation arrivals: `TranslationSettled` may settle any pending translation, and no lemma claims an order across them.

=== FILE: js_strings.dfy ===
/** The part of JavaScript's string semantics the widget relies on:
    `String.prototype.trim`, which strips white space and line terminators
    from both ends of a string. */
module JsStrings {

  /** The code points `trim` removes: the ECMAScript WhiteSpace set (tab,
      vertical tab, form feed, space, no-break space, the byte order mark and
      every other space separator) and the LineTerminator set (line feed,
      carriage return, line separator, paragraph separator). */
  predicate IsWhitespace(c: char)
  {
    || c == '\t' || c == '\n' || c == '\U{000B}' || c == '\U{000C}' || c == '\r'
    || c == ' ' || c == '\U{00A0}' || c == '\U{1680}'
    || ('\U{2000}' <= c <= '\U{200A}')
    || c == '\U{2028}' || c == '\U{2029}' || c == '\U{202F}' || c == '\U{205F}'
    || c == '\U{3000}' || c == '\U{FEFF}'
  }

  predicate AllWhitespace(s: string)
  {
    forall i :: 0 <= i < |s| ==> IsWhitespace(s[i])
  }

  /** Neither end of `s` is white space. */
  predicate Trimmed(s: string)
  {
    |s| == 0 || (!IsWhitespace(s[0]) && !IsWhitespace(s[|s| - 1]))
  }

  /** The length of the white-space run at the start of `s`. */
  function LeadingWhitespace(s: string): (n: nat)
    ensures n <= |s|
    ensures AllWhitespace(s[..n])
    ensures n < |s| ==> !IsWhitespace(s[n])
  {
    if |s| > 0 && IsWhitespace(s[0]) then
      var n := 1 + LeadingWhitespace(s[1..]);
      assert forall i :: 1 <= i < n ==> s[..n][i] == s[1..][..n - 1][i - 1];
      n
    else
      0
  }

  /** The length of the white-space run at the end of `s`. */
  function TrailingWhitespace(s: string): (n: nat)
    ensures n <= |s|
    ensures AllWhitespace(s[|s| - n..])
    ensures n < |s| ==> !IsWhitespace(s[|s| - n - 1])
  {
    if |s| > 0 && IsWhitespace(s[|s| - 1]) then
      var p := s[..|s| - 1];
      var n := 1 + TrailingWhitespace(p);
      assert s[|s| - n..] == p[|p| - (n - 1)..] + [s[|s| - 1]];
      n
    else
      0
  }

  /** `s.trim()`: `s` without its leading and trailing white space. The
      result is the slice `s[i..j]` with only white space outside it and no
      white space at either of its ends. */
  function Trim(s: string): (r: string)
    ensures Trimmed(r)
    ensures exists i, j :: 0 <= i <= j <= |s| && r == s[i..j]
                           && AllWhitespace(s[..i]) && AllWhitespace(s[j..])
  {
    var a := LeadingWhitespace(s);
    var rest := s[a..];
    var b := TrailingWhitespace(rest);
    var r := rest[..|rest| - b];
    assert r == s[a..|s| - b];
    assert s[|s| - b..] == rest[|rest| - b..];
    assert |r| > 0 ==> r[0] == s[a] && r[|r| - 1] == rest[|rest| - b - 1];
    r
  }

  /** Trimming is fully characterised by its contract: any slice of `s` that
      has only white space around it and none at its own ends is `Trim(s)`. */
  lemma TrimUnique(s: string, i: nat, j: nat)
    requires i <= j <= |s|
    requires AllWhitespace(s[..i]) && AllWhitespace(s[j..])
    requires Trimmed(s[i..j])
    ensures Trim(s) == s[i..j]
  {
    if i == j {
      WhitespaceJoin(s, i);
      LeadingAll(s);
    } else {
      assert s[i] == s[i..j][0];
      assert s[j - 1] == s[i..j][j - i - 1];
      LeadingUnique(s, i);
      var rest := s[i..];
      assert rest[|rest| - (|s| - j)..] == s[j..];
      assert rest[|rest| - (|s| - j) - 1] == s[j - 1];
      TrailingUnique(rest, |s| - j);
      assert rest[..|rest| - (|s| - j)] == s[i..j];
    }
  }

  /** White space on both sides of a cut is white space throughout. */
  lemma WhitespaceJoin(s: string, i: nat)
    requires i <= |s|
    requires AllWhitespace(s[..i]) && AllWhitespace(s[i..])
    ensures AllWhitespace(s)
  {
    forall k | 0 <= k < |s| ensures IsWhitespace(s[k]) {
      if k < i {
        assert s[..i][k] == s[k];
      } else {
        assert s[i..][k - i] == s[k];
      }
    }
  }

  /** A string of white space alone is all leading white space. */
  lemma LeadingAll(s: string)
    requires AllWhitespace(s)
    ensures LeadingWhitespace(s) == |s|
  {
    var n := LeadingWhitespace(s);
  }

  /** The leading run ends at the first character that is not white space. */
  lemma LeadingUnique(s: string, i: nat)
    requires i < |s|
    requires AllWhitespace(s[..i]) && !IsWhitespace(s[i])
    ensures LeadingWhitespace(s) == i
  {
    var n := LeadingWhitespace(s);
    assert n <= i;
  }

  /** The trailing run starts after the last character that is not white
      space. */
  lemma TrailingUnique(s: string, m: nat)
    requires m < |s|
    requires AllWhitespace(s[|s| - m..]) && !IsWhitespace(s[|s| - m - 1])
    ensures TrailingWhitespace(s) == m
  {
    var n := TrailingWhitespace(s);
    assert n <= m;
  }

  /** A string that is already trimmed is left alone. */
  lemma TrimTrimmed(s: string)
    requires Trimmed(s)
    ensures Trim(s) == s
  {
    assert s[..0] == [] && s[|s|..] == [] && s[0..|s|] == s;
    TrimUnique(s, 0, |s|);
  }

  /** Trimming is idempotent. */
  lemma TrimIdempotent(s: string)
    ensures Trim(Trim(s)) == Trim(s)
  {
    TrimTrimmed(Trim(s));
  }

  /** One trailing space after a non-empty trimmed string is exactly what
      `trim` removes. */
  lemma TrimDropsTrailingSpace(s: string)
    requires s != [] && Trimmed(s)
    ensures Trim(s + " ") == s
  {
    var t := s + " ";
    assert t[..0] == [];
    assert t[|s|..] == " ";
    assert t[0..|s|] == s;
    TrimUnique(t, 0, |s|);
  }
}

=== FILE: recognition.dfy ===
/** The `onresult` handler of the speech recognizer: it splits the results of
    one recognition event into the interim text shown live and the final text
    committed to the history. */
module Recognition {
  import opened Wrappers
  import JsStrings

  /** One recognition result, reduced to what the handler reads: whether the
      recognizer has committed to it, and the transcript of its first
      alternative. */
  datatype SpeechResult = SpeechResult(isFinal: bool, transcript: string)

  /** The part of a recognition event the handler reads: the index of the
      first result that changed, and the session's whole result list. */
  datatype ResultEvent = ResultEvent(resultIndex: nat, results: seq<SpeechResult>)

  /** What the handler does with one event: the new content of the live
      transcription display, and the text handed to the history, if any. */
  datatype Outcome = Outcome(display: string, entry: Option<string>)

  /** The results the handler visits: those from `resultIndex` to the end,
      and none when `resultIndex` is already past the end. */
  function Window(e: ResultEvent): (w: seq<SpeechResult>)
    ensures |w| == if e.resultIndex <= |e.results| then |e.results| - e.resultIndex else 0
    ensures forall k :: 0 <= k < |w| ==> w[k] == e.results[e.resultIndex + k]
  {
    if e.resultIndex <= |e.results| then e.results[e.resultIndex..] else []
  }

  /** Reference definition of the interim text: the transcripts of the
      non-final results, in order, with nothing between them. */
  function InterimOf(rs: seq<SpeechResult>): string
  {
    if rs == [] then ""
    else (if rs[0].isFinal then "" else rs[0].transcript) + InterimOf(rs[1..])
  }

  /** Reference definition of the accumulated final text: each final
      transcript, in order, followed by one space. */
  function FinalOf(rs: seq<SpeechResult>): string
  {
    if rs == [] then ""
    else (if rs[0].isFinal then rs[0].transcript + " " else "") + FinalOf(rs[1..])
  }

  /** The transcripts of the final results, in order. */
  function FinalTranscripts(rs: seq<SpeechResult>): seq<string>
  {
    if rs == [] then []
    else (if rs[0].isFinal then [rs[0].transcript] else []) + FinalTranscripts(rs[1..])
  }

  /** The strings of `ts` joined with single spaces. */
  function JoinSpaces(ts: seq<string>): string
  {
    if |ts| <= 1 then (if ts == [] then "" else ts[0])
    else ts[0] + " " + JoinSpaces(ts[1..])
  }

  predicate HasFinal(rs: seq<SpeechResult>)
  {
    exists k :: 0 <= k < |rs| && rs[k].isFinal
  }

  lemma {:induction false} InterimAppend(a: seq<SpeechResult>, b: seq<SpeechResult>)
    ensures InterimOf(a + b) == InterimOf(a) + InterimOf(b)
  {
    if a != [] {
      assert (a + b)[1..] == a[1..] + b;
      InterimAppend(a[1..], b);
    } else {
      assert a + b == b;
    }
  }

  lemma {:induction false} FinalAppend(a: seq<SpeechResult>, b: seq<SpeechResult>)
    ensures FinalOf(a + b) == FinalOf(a) + FinalOf(b)
  {
    if a != [] {
      assert (a + b)[1..] == a[1..] + b;
      FinalAppend(a[1..], b);
    } else {
      assert a + b == b;
    }
  }

  /** The final text is non-empty exactly when some result is final: every
      final result contributes at least its trailing space, and non-final
      results contribute nothing. */
  lemma {:induction false} FinalNonEmptyIffHasFinal(rs: seq<SpeechResult>)
    ensures FinalOf(rs) != "" <==> HasFinal(rs)
  {
    if rs != [] {
      FinalNonEmptyIffHasFinal(rs[1..]);
      if HasFinal(rs[1..]) {
        var k :| 0 <= k < |rs[1..]| && rs[1..][k].isFinal;
        assert rs[k + 1].isFinal;
      }
      if HasFinal(rs) && !rs[0].isFinal {
        var k :| 0 <= k < |rs| && rs[k].isFinal;
        assert rs[1..][k - 1].isFinal;
      }
    }
  }

  /** When there is at least one final result, the final text is those
      transcripts joined by single spaces, plus one trailing space. */
  lemma {:induction false} FinalIsJoinPlusSpace(rs: seq<SpeechResult>)
    requires FinalTranscripts(rs) != []
    ensures FinalOf(rs) == JoinSpaces(FinalTranscripts(rs)) + " "
  {
    if rs[0].isFinal {
      if FinalTranscripts(rs[1..]) == [] {
        NoFinalTranscriptsNoFinalText(rs[1..]);
      } else {
        FinalIsJoinPlusSpace(rs[1..]);
        var ts := FinalTranscripts(rs[1..]);
        assert ([rs[0].transcript] + ts)[1..] == ts;
      }
    } else {
      FinalIsJoinPlusSpace(rs[1..]);
      assert FinalTranscripts(rs) == FinalTranscripts(rs[1..]);
    }
  }

  lemma {:induction false} NoFinalTranscriptsNoFinalText(rs: seq<SpeechResult>)
    requires FinalTranscripts(rs) == []
    ensures FinalOf(rs) == ""
  {
    if rs != [] {
      NoFinalTranscriptsNoFinalText(rs[1..]);
    }
  }

  /** Joining non-empty, trimmed pieces with single spaces gives a non-empty,
      trimmed string. */
  lemma {:induction false} JoinTrimmed(ts: seq<string>)
    requires ts != []
    requires forall k :: 0 <= k < |ts| ==> ts[k] != "" && JsStrings.Trimmed(ts[k])
    ensures JoinSpaces(ts) != "" && JsStrings.Trimmed(JoinSpaces(ts))
  {
    if |ts| > 1 {
      JoinTrimmed(ts[1..]);
      var j := ts[0] + " " + JoinSpaces(ts[1..]);
      assert j[0] == ts[0][0];
      assert j[|j| - 1] == JoinSpaces(ts[1..])[|JoinSpaces(ts[1..])| - 1];
    }
  }

  /** The loop of the handler: walks the results from `resultIndex` on,
      appending non-final transcripts to the interim text and final
      transcripts, each with a trailing space, to the final text. */
  method Demux(e: ResultEvent) returns (interim: string, finalT: string)
    ensures interim == InterimOf(Window(e))
    ensures finalT == FinalOf(Window(e))
  {
    interim, finalT := "", "";
    if e.resultIndex > |e.results| {
      // The loop condition fails at once: nothing is visited.
      return;
    }
    var i := e.resultIndex;
    while i < |e.results|
      invariant e.resultIndex <= i <= |e.results|
      invariant interim == InterimOf(e.results[e.resultIndex..i])
      invariant finalT == FinalOf(e.results[e.resultIndex..i])
      decreases |e.results| - i
    {
      var r := e.results[i];
      ExtendVisited(e.results, e.resultIndex, i);
      if r.isFinal {
        finalT := finalT + r.transcript + " ";
      } else {
        interim := interim + r.transcript;
      }
      i := i + 1;
    }
    assert e.results[e.resultIndex..i] == Window(e);
  }

  /** Visiting one more result extends both texts by that result's share. */
  lemma ExtendVisited(rs: seq<SpeechResult>, lo: nat, i: nat)
    requires lo <= i < |rs|
    ensures InterimOf(rs[lo..i + 1]) == InterimOf(rs[lo..i]) + (if rs[i].isFinal then "" else rs[i].transcript)
    ensures FinalOf(rs[lo..i + 1]) == FinalOf(rs[lo..i]) + (if rs[i].isFinal then rs[i].transcript + " " else "")
  {
    assert rs[lo..i + 1] == rs[lo..i] + [rs[i]];
    InterimAppend(rs[lo..i], [rs[i]]);
    FinalAppend(rs[lo..i], [rs[i]]);
    assert [rs[i]][1..] == [];
  }

  /** The whole handler: the display shows the interim text, and a history
      entry, the trimmed final text, is emitted exactly when some visited
      result is final. */
  function OnResult(e: ResultEvent): (o: Outcome)
    ensures o.display == InterimOf(Window(e))
    ensures o.entry.Some? <==> exists k :: e.resultIndex <= k < |e.results| && e.results[k].isFinal
    ensures o.entry.Some? <==> HasFinal(Window(e))
    ensures o.entry.Some? ==> o.entry.value == JsStrings.Trim(FinalOf(Window(e)))
  {
    var w := Window(e);
    var f := FinalOf(w);
    FinalNonEmptyIffHasFinal(w);
    assert HasFinal(w) ==> exists k :: e.resultIndex <= k < |e.results| && e.results[k].isFinal by {
      if HasFinal(w) {
        var k :| 0 <= k < |w| && w[k].isFinal;
        assert e.results[e.resultIndex + k].isFinal;
      }
    }
    Outcome(InterimOf(w), if f != "" then Some(JsStrings.Trim(f)) else None)
  }

  /** Results before `resultIndex` never contribute: replacing them changes
      nothing the handler produces. */
  lemma EarlierResultsIgnored(e: ResultEvent, e': ResultEvent)
    requires e.resultIndex == e'.resultIndex <= |e.results| == |e'.results|
    requires e.results[e.resultIndex..] == e'.results[e'.resultIndex..]
    ensures OnResult(e) == OnResult(e')
  {
  }

  /** In the common case, where each final transcript is non-empty and has no
      white space at its ends, the history entry is those transcripts joined
      by single spaces. */
  lemma EntryIsSpaceJoined(e: ResultEvent)
    requires FinalTranscripts(Window(e)) != []
    requires forall k :: 0 <= k < |FinalTranscripts(Window(e))| ==>
               FinalTranscripts(Window(e))[k] != "" && JsStrings.Trimmed(FinalTranscripts(Window(e))[k])
    ensures OnResult(e).entry == Some(JoinSpaces(FinalTranscripts(Window(e))))
  {
    var ts := FinalTranscripts(Window(e));
    FinalIsJoinPlusSpace(Window(e));
    JoinTrimmed(ts);
    JsStrings.TrimDropsTrailingSpace(JoinSpaces(ts));
  }

  /** When every final transcript in the window is empty or only white
      space, and there is at least one, a history entry is still emitted,
      and that entry is the empty string. */
  lemma BlankFinalsStillEmit(e: ResultEvent)
    requires HasFinal(Window(e))
    requires forall k :: 0 <= k < |Window(e)| && Window(e)[k].isFinal ==>
               JsStrings.AllWhitespace(Window(e)[k].transcript)
    ensures OnResult(e).entry == Some("")
  {
    var w := Window(e);
    var f := FinalOf(w);
    FinalBlank(w);
    FinalNonEmptyIffHasFinal(w);
    var k :| 0 <= k < |w| && w[k].isFinal;
    assert e.results[e.resultIndex + k].isFinal;
    assert f[..|f|] == f;
    assert f[|f|..] == [] && f[|f|..|f|] == [];
    JsStrings.TrimUnique(f, |f|, |f|);
  }

  /** Blank final transcripts give a final text of white space alone. */
  lemma {:induction false} FinalBlank(rs: seq<SpeechResult>)
    requires forall k :: 0 <= k < |rs| && rs[k].isFinal ==> JsStrings.AllWhitespace(rs[k].transcript)
    ensures JsStrings.AllWhitespace(FinalOf(rs))
  {
    if rs != [] {
      assert forall k :: 0 <= k < |rs[1..]| && rs[1..][k].isFinal ==> JsStrings.AllWhitespace(rs[1..][k].transcript) by {
        forall k | 0 <= k < |rs[1..]| && rs[1..][k].isFinal
          ensures JsStrings.AllWhitespace(rs[1..][k].transcript)
        {
          assert rs[1..][k] == rs[k + 1];
        }
      }
      FinalBlank(rs[1..]);
      var head := if rs[0].isFinal then rs[0].transcript + " " else "";
      assert JsStrings.AllWhitespace(head);
      var f := head + FinalOf(rs[1..]);
      assert forall i :: 0 <= i < |f| ==> f[i] == (if i < |head| then head[i] else FinalOf(rs[1..])[i - |head|]);
    }
  }
}

=== FILE: session.dfy ===
/** The widget's session: the module-level variables of the script gathered
    into one immutable state, and each event handler as a pure transition
    that returns the next state and the commands it issues to the speech
    recognizer. */
module Session {
  import opened Wrappers
  import Recognition
  import Translation

  /** A call on the recognizer object: `recognition.start()` or
      `recognition.stop()`. */
  datatype Command = StartRecognizer | StopRecognizer

  /** A translation that has been requested and not yet settled: the
      original text and the language that was current when it was requested. */
  datatype PendingTranslation = PendingTranslation(text: string, lang: string)

  /** The session state. `hasRecognizer` is whether the recognizer object
      exists; `recognizerLang` is its `lang` property; `transcription` is the
      live display; the two histories hold the texts of the bubbles of each
      panel in document order, most recent first (every bubble is inserted
      before the panel's first child, so all of them come before the panel's
      header, which is not modelled); `pending` holds the translations still
      in flight. */
  datatype State = State(
    hasRecognizer: bool,
    isRecording: bool,
    currentLanguage: string,
    recognizerLang: string,
    transcription: string,
    historyOriginal: seq<string>,
    historyTranslation: seq<string>,
    pending: seq<PendingTranslation>)

  /** The events the script reacts to. `TranslationSettled(k, endpoint)`
      is the `k`-th pending translation resolving, with `endpoint` the answer
      the translation service gives; pending translations may settle in any
      order. */
  datatype Event =
    | RecognizerCreated
    | Toggle
    | OnStart
    | OnResult(result: Recognition.ResultEvent)
    | OnError
    | OnEnd
    | LangChange(lang: string)
    | Clear
    | TranslationSettled(index: nat, endpoint: Translation.Query -> Translation.Reply)
  {
    /** Events delivered by the recognizer object, which cannot occur before
        it exists. */
    predicate FromRecognizer()
    {
      OnStart? || OnResult? || OnError? || OnEnd?
    }

    /** Events that empty the panels. */
    predicate Clears()
    {
      LangChange? || Clear?
    }
  }

  /** The next state and the recognizer calls made, in order. */
  datatype Transition = Transition(state: State, commands: seq<Command>)

  /** The state at page load: Spanish selected, not recording, nothing shown
      and no recognizer yet. */
  function Init(): (s: State)
    ensures !s.isRecording && !s.hasRecognizer
    ensures s.currentLanguage == Translation.SpanishTag
    ensures s.historyOriginal == [] && s.historyTranslation == [] && s.pending == []
  {
    State(false, false, Translation.SpanishTag, "", "", [], [], [])
  }

  /** The invariant of reachable states: only an existing recognizer can be
      recording, and an existing recognizer's `lang` property is the
      selected language. */
  predicate Valid(s: State)
  {
    && (s.isRecording ==> s.hasRecognizer)
    && (s.hasRecognizer ==> s.recognizerLang == s.currentLanguage)
  }

  // ---------------------------------------------------------------------
  // Handlers
  // ---------------------------------------------------------------------

  /** `initializeRecognition` when the platform offers speech recognition:
      the recognizer is created in the current language. */
  function CreateRecognizer(s: State): (t: Transition)
    ensures t.state.hasRecognizer && t.state.recognizerLang == s.currentLanguage
    ensures t.state.(hasRecognizer := s.hasRecognizer, recognizerLang := s.recognizerLang) == s
    ensures t.commands == []
  {
    Transition(s.(hasRecognizer := true, recognizerLang := s.currentLanguage), [])
  }

  /** `onstart`: the only place where recording becomes true. */
  function HandleStart(s: State): (t: Transition)
    ensures t.state.isRecording
    ensures t.state.(isRecording := s.isRecording) == s
    ensures t.commands == []
  {
    Transition(s.(isRecording := true), [])
  }

  /** `stopRecognition`: recording ends whatever it was, the recognizer is
      told to stop when it exists, and nothing else in the state changes. */
  function StopRecognition(s: State): (t: Transition)
    ensures !t.state.isRecording
    ensures t.state.(isRecording := s.isRecording) == s
    ensures StopRecognizer in t.commands <==> s.hasRecognizer
    ensures StartRecognizer !in t.commands
  {
    Transition(s.(isRecording := false), if s.hasRecognizer then [StopRecognizer] else [])
  }

  /** `onerror`: always goes through `stopRecognition`. */
  function HandleError(s: State): (t: Transition)
    ensures t == StopRecognition(s)
    ensures !t.state.isRecording
  {
    StopRecognition(s)
  }

  /** `onend`: the recognizer is restarted exactly when the session is still
      meant to be recording; the state is left alone. */
  function HandleEnd(s: State): (t: Transition)
    ensures t.state == s
    ensures StartRecognizer in t.commands <==> s.isRecording
    ensures StopRecognizer !in t.commands
  {
    Transition(s, if s.isRecording then [StartRecognizer] else [])
  }

  /** `toggleRecording`: nothing without a recognizer; a stop while
      recording; otherwise the recognizer is set to the current language and
      started, and recording stays false until `onstart`. */
  function ToggleRecording(s: State): (t: Transition)
    ensures !s.hasRecognizer ==> t == Transition(s, [])
    ensures s.hasRecognizer && s.isRecording ==> t == StopRecognition(s)
    ensures s.hasRecognizer && !s.isRecording ==>
              && t.commands == [StartRecognizer]
              && !t.state.isRecording
              && t.state.recognizerLang == s.currentLanguage
              && t.state.(recognizerLang := s.recognizerLang) == s
  {
    if !s.hasRecognizer then Transition(s, [])
    else if s.isRecording then StopRecognition(s)
    else Transition(s.(recognizerLang := s.currentLanguage), [StartRecognizer])
  }

  /** `clearAll`: the live display is emptied and both panels go back to
      their header alone; translations in flight are not cancelled. */
  function ClearAll(s: State): (t: Transition)
    ensures t.state.transcription == ""
    ensures t.state.historyOriginal == [] && t.state.historyTranslation == []
    ensures t.state.(transcription := s.transcription,
                     historyOriginal := s.historyOriginal,
                     historyTranslation := s.historyTranslation) == s
    ensures t.commands == []
  {
    Transition(s.(transcription := "", historyOriginal := [], historyTranslation := []), [])
  }

  /** The synchronous part of `addToHistory`: the original bubble goes to the
      head of its panel at once, and a translation of it in the current
      language is requested. */
  function AddToHistory(s: State, text: string): (t: Transition)
    ensures t.state.historyOriginal == [text] + s.historyOriginal
    ensures t.state.pending == s.pending + [PendingTranslation(text, s.currentLanguage)]
    ensures t.state.(historyOriginal := s.historyOriginal, pending := s.pending) == s
    ensures t.commands == []
  {
    Transition(s.(historyOriginal := [text] + s.historyOriginal,
                  pending := s.pending + [PendingTranslation(text, s.currentLanguage)]), [])
  }

  /** `onresult`: the display shows the interim text, and a history entry is
      added exactly when the event carries a final result. */
  function HandleResult(s: State, e: Recognition.ResultEvent): (t: Transition)
    ensures t.state.transcription == Recognition.InterimOf(Recognition.Window(e))
    ensures Recognition.HasFinal(Recognition.Window(e)) ==>
              t.state.historyOriginal == [Recognition.OnResult(e).entry.value] + s.historyOriginal
    ensures Recognition.HasFinal(Recognition.Window(e)) ==>
              t == AddToHistory(s.(transcription := t.state.transcription), Recognition.OnResult(e).entry.value)
    ensures Recognition.HasFinal(Recognition.Window(e)) ==>
              t.state.pending == s.pending + [PendingTranslation(Recognition.OnResult(e).entry.value, s.currentLanguage)]
    ensures !Recognition.HasFinal(Recognition.Window(e)) ==>
              t.state == s.(transcription := t.state.transcription)
    ensures t.commands == []
  {
    var o := Recognition.OnResult(e);
    var shown := s.(transcription := o.display);
    match o.entry
    case None => Transition(shown, [])
    case Some(text) => AddToHistory(shown, text)
  }

  /** The asynchronous part of `addToHistory`: when the `k`-th pending
      translation settles, its text (or the error text) goes to the head of
      the translation panel and it leaves the pending list. An index with no
      pending translation is no event at all. */
  function SettleTranslation(s: State, k: nat, endpoint: Translation.Query -> Translation.Reply): (t: Transition)
    ensures k < |s.pending| ==>
              && t.state.historyTranslation ==
                   [Translation.TranslateText(s.pending[k].text, s.pending[k].lang, endpoint)] + s.historyTranslation
              && t.state.pending == s.pending[..k] + s.pending[k + 1..]
              && t.state.(historyTranslation := s.historyTranslation, pending := s.pending) == s
    ensures k >= |s.pending| ==> t.state == s
    ensures t.commands == []
  {
    if k < |s.pending| then
      var p := s.pending[k];
      var tr := Translation.TranslateText(p.text, p.lang, endpoint);
      Transition(s.(historyTranslation := [tr] + s.historyTranslation,
                    pending := s.pending[..k] + s.pending[k + 1..]), [])
    else
      Transition(s, [])
  }

  /** `handleLanguageChange`: choosing the language already selected changes
      nothing. Otherwise the language is switched on the live recognizer,
      without stopping or restarting it, and the display and both panels are
      cleared. */
  function HandleLanguageChange(s: State, lang: string): (t: Transition)
    ensures lang == s.currentLanguage ==> t == Transition(s, [])
    ensures lang != s.currentLanguage ==>
              && t.state.currentLanguage == lang
              && (s.hasRecognizer ==> t.state.recognizerLang == lang)
              && (!s.hasRecognizer ==> t.state.recognizerLang == s.recognizerLang)
              && t.state.isRecording == s.isRecording
              && t.state.hasRecognizer == s.hasRecognizer
              && t.state.transcription == ""
              && t.state.historyOriginal == [] && t.state.historyTranslation == []
              && t.state.pending == s.pending
    ensures t.commands == []
  {
    if lang == s.currentLanguage then Transition(s, [])
    else
      var switched := s.(currentLanguage := lang,
                         recognizerLang := if s.hasRecognizer then lang else s.recognizerLang);
      ClearAll(switched)
  }

  // ---------------------------------------------------------------------
  // Dispatch and traces
  // ---------------------------------------------------------------------

  /** One event. Recognizer events before the recognizer exists do not
      happen, so they change nothing. */
  function Step(s: State, ev: Event): (t: Transition)
    ensures ev.FromRecognizer() && !s.hasRecognizer ==> t == Transition(s, [])
    ensures s.hasRecognizer ==> t.state.hasRecognizer
    ensures StartRecognizer in t.commands ==> ev.Toggle? || ev.OnEnd?
    ensures StopRecognizer in t.commands ==> ev.Toggle? || ev.OnError?
    ensures ev.RecognizerCreated? ==> t.state.hasRecognizer && t.state.recognizerLang == s.currentLanguage
    ensures ev.OnStart? && s.hasRecognizer ==> t.state.isRecording
    ensures ev.OnError? && s.hasRecognizer ==> !t.state.isRecording && t.commands == [StopRecognizer]
    ensures ev.OnEnd? && s.hasRecognizer ==> (StartRecognizer in t.commands <==> s.isRecording)
    ensures ev.Clear? || (ev.LangChange? && ev.lang != s.currentLanguage) ==>
              t.state.transcription == "" && t.state.historyOriginal == [] && t.state.historyTranslation == []
    ensures ev.LangChange? ==> t.state.currentLanguage == ev.lang && t.state.isRecording == s.isRecording
  {
    if ev.FromRecognizer() && !s.hasRecognizer then Transition(s, [])
    else
      match ev
      case RecognizerCreated => CreateRecognizer(s)
      case Toggle => ToggleRecording(s)
      case OnStart => HandleStart(s)
      case OnResult(e) => HandleResult(s, e)
      case OnError => HandleError(s)
      case OnEnd => HandleEnd(s)
      case LangChange(lang) => HandleLanguageChange(s, lang)
      case Clear => ClearAll(s)
      case TranslationSettled(k, endpoint) => SettleTranslation(s, k, endpoint)
  }

  /** A trace of events from `s`: the final state and every recognizer call
      made along the way, in order. */
  function Run(s: State, evs: seq<Event>): (t: Transition)
    ensures s.hasRecognizer ==> t.state.hasRecognizer
    ensures evs == [] ==> t == Transition(s, [])
    decreases |evs|
  {
    if evs == [] then Transition(s, [])
    else
      var first := Step(s, evs[0]);
      var rest := Run(first.state, evs[1..]);
      Transition(rest.state, first.commands + rest.commands)
  }

  /** The number of `Toggle` events in a trace. */
  function Toggles(evs: seq<Event>): nat
  {
    if evs == [] then 0 else (if evs[0].Toggle? then 1 else 0) + Toggles(evs[1..])
  }

  /** The history text one event emits, if any. */
  function EmittedBy(ev: Event): seq<string>
  {
    if ev.OnResult? && Recognition.OnResult(ev.result).entry.Some?
    then [Recognition.OnResult(ev.result).entry.value] else []
  }

  /** The history texts a trace's results emit, oldest first. */
  function Emitted(evs: seq<Event>): seq<string>
  {
    if evs == [] then [] else EmittedBy(evs[0]) + Emitted(evs[1..])
  }

  function Reverse<T>(xs: seq<T>): seq<T>
  {
    if xs == [] then [] else Reverse(xs[1..]) + [xs[0]]
  }

  predicate NoOnStart(evs: seq<Event>)
  {
    forall k :: 0 <= k < |evs| ==> !evs[k].OnStart?
  }

  predicate NoClearing(evs: seq<Event>)
  {
    forall k :: 0 <= k < |evs| ==> !evs[k].Clears()
  }

  // ---------------------------------------------------------------------
  // Properties of single steps
  // ---------------------------------------------------------------------

  lemma InitValid()
    ensures Valid(Init())
  {
  }

  /** Every event keeps the invariant. */
  lemma StepPreservesValid(s: State, ev: Event)
    requires Valid(s)
    ensures Valid(Step(s, ev).state)
  {
  }

  /** Recording is switched on by the `onstart` event and by nothing else. */
  lemma RecordingOnlyOnStart(s: State, ev: Event)
    requires !s.isRecording && Step(s, ev).state.isRecording
    ensures ev.OnStart?
  {
  }

  /** Only `onend` while recording, and the start half of a toggle, ever
      start the recognizer. */
  lemma StartOnlyFromToggleOrRestart(s: State, ev: Event)
    requires StartRecognizer in Step(s, ev).commands
    ensures ev.Toggle? || (ev.OnEnd? && s.isRecording)
    ensures ev.Toggle? ==> !s.isRecording
  {
  }

  /** In a reachable state, `onend` restarts the recognizer exactly when
      the session is recording, and a stop or error beforehand rules the
      restart out. */
  lemma OnEndRestartIffRecording(s: State)
    requires Valid(s)
    ensures StartRecognizer in Step(s, OnEnd).commands <==> s.isRecording
    ensures Step(s, OnEnd).state == s
    ensures StartRecognizer !in Step(StopRecognition(s).state, OnEnd).commands
    ensures StartRecognizer !in Step(HandleError(s).state, OnEnd).commands
  {
  }

  /** Stopping is idempotent on the state: a second stop changes nothing
      more. */
  lemma StopIdempotent(s: State)
    ensures StopRecognition(StopRecognition(s).state).state == StopRecognition(s).state
  {
  }

  // ---------------------------------------------------------------------
  // Properties of traces
  // ---------------------------------------------------------------------

  /** Every state reachable from page load satisfies the invariant. */
  lemma {:induction false} RunPreservesValid(s: State, evs: seq<Event>)
    requires Valid(s)
    ensures Valid(Run(s, evs).state)
    decreases |evs|
  {
    if evs != [] {
      StepPreservesValid(s, evs[0]);
      RunPreservesValid(Step(s, evs[0]).state, evs[1..]);
    }
  }

  lemma ReachableValid(evs: seq<Event>)
    ensures Valid(Run(Init(), evs).state)
  {
    InitValid();
    RunPreservesValid(Init(), evs);
  }

  /** A stopped session is never resurrected: until `onstart` fires again,
      recording stays off, and every start of the recognizer along the way is
      a user's toggle, never an automatic restart. */
  lemma {:induction false} StoppedStaysStopped(s: State, evs: seq<Event>)
    requires !s.isRecording && NoOnStart(evs)
    ensures !Run(s, evs).state.isRecording
    ensures multiset(Run(s, evs).commands)[StartRecognizer] <= Toggles(evs)
    decreases |evs|
  {
    if evs != [] {
      var first := Step(s, evs[0]);
      assert !evs[0].OnStart?;
      assert StartRecognizer in first.commands ==> evs[0].Toggle? by {
        if StartRecognizer in first.commands {
          StartOnlyFromToggleOrRestart(s, evs[0]);
        }
      }
      assert multiset(first.commands)[StartRecognizer] <= (if evs[0].Toggle? then 1 else 0);
      assert NoOnStart(evs[1..]) by {
        forall k | 0 <= k < |evs[1..]| ensures !evs[1..][k].OnStart? {
          assert evs[1..][k] == evs[k + 1];
        }
      }
      StoppedStaysStopped(first.state, evs[1..]);
      var rest := Run(first.state, evs[1..]);
      assert multiset(first.commands + rest.commands) == multiset(first.commands) + multiset(rest.commands);
    }
  }

  /** Without clearing, the original panel lists the emitted texts most
      recent first, above what it held before. */
  lemma {:induction false} OriginalsMostRecentFirst(s: State, evs: seq<Event>)
    requires s.hasRecognizer && NoClearing(evs)
    ensures Run(s, evs).state.historyOriginal == Reverse(Emitted(evs)) + s.historyOriginal
    decreases |evs|
  {
    if evs != [] {
      var first := Step(s, evs[0]);
      TailNoClearing(evs);
      StepOriginals(s, evs[0]);
      OriginalsMostRecentFirst(first.state, evs[1..]);
      PrependEmission(EmittedBy(evs[0]), Emitted(evs[1..]), s.historyOriginal,
                      Run(s, evs).state.historyOriginal);
    }
  }

  /** A non-clearing event puts what it emits, if anything, at the head of
      the original panel and leaves the rest of the panel alone. */
  lemma StepOriginals(s: State, ev: Event)
    requires s.hasRecognizer && !ev.Clears()
    ensures Step(s, ev).state.historyOriginal == EmittedBy(ev) + s.historyOriginal
  {
    if ev.OnResult? {
      assert Step(s, ev) == HandleResult(s, ev.result);
    }
  }

  /** Putting at most one new text on top of a panel that already lists
      `later` most recent first over `h`. */
  lemma PrependEmission<T>(here: seq<T>, later: seq<T>, h: seq<T>, panel: seq<T>)
    requires |here| <= 1
    requires panel == Reverse(later) + (here + h)
    ensures panel == Reverse(here + later) + h
  {
    ReverseAppend(here, later);
    ReverseShort(here);
    assert (Reverse(later) + here) + h == Reverse(later) + (here + h);
  }

  lemma ReverseShort<T>(xs: seq<T>)
    requires |xs| <= 1
    ensures Reverse(xs) == xs
  {
    if xs != [] {
      assert xs[1..] == [];
    }
  }

  lemma {:induction false} ReverseAppend<T>(a: seq<T>, b: seq<T>)
    ensures Reverse(a + b) == Reverse(b) + Reverse(a)
    decreases |a|
  {
    if a == [] {
      assert a + b == b;
    } else {
      assert (a + b)[1..] == a[1..] + b;
      ReverseAppend(a[1..], b);
    }
  }

  /** The translation one event requests: the history entry it emits, in
      the language current at that moment. */
  function RequestedBy(s: State, ev: Event): seq<PendingTranslation>
  {
    if ev.OnResult? && s.hasRecognizer && Recognition.OnResult(ev.result).entry.Some?
    then [PendingTranslation(Recognition.OnResult(ev.result).entry.value, s.currentLanguage)]
    else []
  }

  /** The pending translation one event settles. */
  function SettledBy(s: State, ev: Event): seq<PendingTranslation>
  {
    if ev.TranslationSettled? && ev.index < |s.pending| then [s.pending[ev.index]] else []
  }

  /** The translation bubble one event adds. */
  function BubbleBy(s: State, ev: Event): seq<string>
  {
    if ev.TranslationSettled? && ev.index < |s.pending|
    then [Translation.TranslateText(s.pending[ev.index].text, s.pending[ev.index].lang, ev.endpoint)]
    else []
  }

  /** The translations a trace requests, oldest first. */
  function Requested(s: State, evs: seq<Event>): seq<PendingTranslation>
    decreases |evs|
  {
    if evs == [] then [] else RequestedBy(s, evs[0]) + Requested(Step(s, evs[0]).state, evs[1..])
  }

  /** The pending translations a trace settles, in the order they settle. */
  function Settled(s: State, evs: seq<Event>): seq<PendingTranslation>
    decreases |evs|
  {
    if evs == [] then [] else SettledBy(s, evs[0]) + Settled(Step(s, evs[0]).state, evs[1..])
  }

  /** The translation bubbles a trace adds, oldest first. */
  function Bubbles(s: State, evs: seq<Event>): seq<string>
    decreases |evs|
  {
    if evs == [] then [] else BubbleBy(s, evs[0]) + Bubbles(Step(s, evs[0]).state, evs[1..])
  }

  function Texts(ps: seq<PendingTranslation>): seq<string>
  {
    if ps == [] then [] else [ps[0].text] + Texts(ps[1..])
  }

  lemma {:induction false} TextsAppend(a: seq<PendingTranslation>, b: seq<PendingTranslation>)
    ensures Texts(a + b) == Texts(a) + Texts(b)
    decreases |a|
  {
    if a == [] {
      assert a + b == b;
    } else {
      assert (a + b)[1..] == a[1..] + b;
      TextsAppend(a[1..], b);
    }
  }

  /** One event's effect on the queue: what leaves it is what it settles,
      what joins it is what it requests. */
  lemma StepQueue(s: State, ev: Event)
    ensures multiset(Step(s, ev).state.pending) + multiset(SettledBy(s, ev))
            == multiset(s.pending) + multiset(RequestedBy(s, ev))
  {
    if ev.TranslationSettled? && ev.index < |s.pending| {
      var k := ev.index;
      assert s.pending == s.pending[..k] + [s.pending[k]] + s.pending[k + 1..];
    } else if ev.OnResult? && s.hasRecognizer {
      assert Step(s, ev) == HandleResult(s, ev.result);
    }
  }

  /** A request is made for exactly the entry an event emits. */
  lemma StepRequestedIsEmitted(s: State, ev: Event)
    requires s.hasRecognizer
    ensures Texts(RequestedBy(s, ev)) == EmittedBy(ev)
  {
  }

  /** A non-clearing event puts the bubble it adds, if any, at the head of
      the translation panel. */
  lemma StepTranslations(s: State, ev: Event)
    requires !ev.Clears()
    ensures Step(s, ev).state.historyTranslation == BubbleBy(s, ev) + s.historyTranslation
  {
    if ev.OnResult? && s.hasRecognizer {
      assert Step(s, ev) == HandleResult(s, ev.result);
    }
  }

  lemma TailNoClearing(evs: seq<Event>)
    requires evs != [] && NoClearing(evs)
    ensures !evs[0].Clears() && NoClearing(evs[1..])
  {
    forall k | 0 <= k < |evs[1..]| ensures !evs[1..][k].Clears() {
      assert evs[1..][k] == evs[k + 1];
    }
  }

  /** Every translation requested along a trace is either still pending at
      its end or has settled: nothing is lost, duplicated or invented, and
      clearing does not cancel any. */
  lemma {:induction false} EachOriginalOneTranslation(s: State, evs: seq<Event>)
    ensures multiset(Run(s, evs).state.pending) + multiset(Settled(s, evs))
            == multiset(s.pending) + multiset(Requested(s, evs))
    decreases |evs|
  {
    if evs != [] {
      var next := Step(s, evs[0]).state;
      StepQueue(s, evs[0]);
      EachOriginalOneTranslation(next, evs[1..]);
      var p0, p1, p2 := multiset(s.pending), multiset(next.pending), multiset(Run(next, evs[1..]).state.pending);
      var s1, s2 := multiset(SettledBy(s, evs[0])), multiset(Settled(next, evs[1..]));
      var r1, r2 := multiset(RequestedBy(s, evs[0])), multiset(Requested(next, evs[1..]));
      assert Run(s, evs).state == Run(next, evs[1..]).state;
      assert multiset(Settled(s, evs)) == s1 + s2;
      assert multiset(Requested(s, evs)) == r1 + r2;
      calc {
        p2 + (s1 + s2);
        (p2 + s2) + s1;
        (p1 + r2) + s1;
        (p1 + s1) + r2;
        (p0 + r1) + r2;
        p0 + (r1 + r2);
      }
    }
  }

  /** The translations requested along a trace are for the emitted texts,
      one each, in the order they were emitted. */
  lemma {:induction false} RequestedAreEmitted(s: State, evs: seq<Event>)
    requires s.hasRecognizer
    ensures Texts(Requested(s, evs)) == Emitted(evs)
    decreases |evs|
  {
    if evs != [] {
      var next := Step(s, evs[0]).state;
      StepRequestedIsEmitted(s, evs[0]);
      RequestedAreEmitted(next, evs[1..]);
      TextsAppend(RequestedBy(s, evs[0]), Requested(next, evs[1..]));
    }
  }

  /** Without clearing, the translation panel lists the bubbles added along
      the trace most recent first, above what it held before; the order is
      the order of settling, not of requesting. */
  lemma {:induction false} TranslationsMostRecentFirst(s: State, evs: seq<Event>)
    requires NoClearing(evs)
    ensures Run(s, evs).state.historyTranslation == Reverse(Bubbles(s, evs)) + s.historyTranslation
    decreases |evs|
  {
    if evs != [] {
      var next := Step(s, evs[0]).state;
      TailNoClearing(evs);
      StepTranslations(s, evs[0]);
      TranslationsMostRecentFirst(next, evs[1..]);
      assert Run(s, evs).state == Run(next, evs[1..]).state;
      PrependEmission(BubbleBy(s, evs[0]), Bubbles(next, evs[1..]), s.historyTranslation,
                      Run(s, evs).state.historyTranslation);
    }
  }

  // ---------------------------------------------------------------------
  // Scenarios
  // ---------------------------------------------------------------------

  /** Start, `onstart`, stop: the session goes idle, recording, idle, with
      one start and one stop of the recognizer. */
  lemma StartThenStop(s: State)
    requires Valid(s) && s.hasRecognizer && !s.isRecording
    ensures Run(s, [Toggle, OnStart, Toggle]).commands == [StartRecognizer, StopRecognizer]
    ensures !Run(s, [Toggle, OnStart, Toggle]).state.isRecording
  {
    var s1 := ToggleRecording(s).state;
    var s2 := HandleStart(s1).state;
    assert Run(s, [Toggle, OnStart, Toggle]) == Transition(StopRecognition(s2).state, [StartRecognizer] + ([] + ([StopRecognizer] + [])))
      by {
      assert [Toggle, OnStart, Toggle][1..] == [OnStart, Toggle];
      assert [OnStart, Toggle][1..] == [Toggle];
      assert [Toggle][1..] == [];
    }
  }

  /** A second click before `onstart` has fired is read as another start,
      not as a stop, because recording only becomes true on `onstart`. */
  lemma SecondClickBeforeOnStartStartsAgain(s: State)
    requires Valid(s) && s.hasRecognizer && !s.isRecording
    ensures Run(s, [Toggle, Toggle]).commands == [StartRecognizer, StartRecognizer]
    ensures !Run(s, [Toggle, Toggle]).state.isRecording
  {
    assert [Toggle, Toggle][1..] == [Toggle];
    assert [Toggle][1..] == [];
  }

  /** A translation requested before a clear still lands after it: clearing
      does not cancel requests in flight. */
  lemma TranslationSurvivesClear(s: State, text: string, endpoint: Translation.Query -> Translation.Reply)
    ensures var t := SettleTranslation(ClearAll(AddToHistory(s, text).state).state, |s.pending|, endpoint);
            t.state.historyTranslation == [Translation.TranslateText(text, s.currentLanguage, endpoint)]
  {
  }
}

=== FILE: translation.dfy ===
/** The translation client: which language pair a recognition language is
    translated along, and how the answer of the remote endpoint becomes the
    text of a translation bubble. */
module Translation {
  import opened Wrappers

  /** The recognition language the widget treats as Spanish; every other tag
      is treated as English. */
  const SpanishTag := "es-ES"

  /** The fixed text shown in place of a translation that could not be had. */
  const ErrorText := "Error al traducir"

  /** A `source|target` language pair as sent to the endpoint. */
  datatype LangPair = LangPair(source: string, target: string)

  /** The parameters of the GET request: the text and the language pair.
      URL building and percent-encoding are not modelled. */
  datatype Query = Query(q: string, langpair: LangPair)

  /** The `responseData` object of a parsed answer; `translatedText` is
      `None` when the field is missing or null. */
  datatype ResponseData = ResponseData(translatedText: Option<string>)

  /** How the awaited `fetch` and `res.json()` ended: `Rejected` when either
      threw (network failure, body that is not JSON); otherwise the HTTP
      status and the parsed body, whose `responseData` is `None` when it is
      missing or null. */
  datatype Reply =
    | Rejected
    | Answered(status: nat, responseData: Option<ResponseData>)

  /** The pair for a recognition language: Spanish to English for the
      Spanish tag, English to Spanish for every other tag. */
  function TranslationCodes(lang: string): (p: LangPair)
    ensures p.source != p.target
    ensures {p.source, p.target} == {"es", "en"}
    ensures p.source == "es" <==> lang == SpanishTag
  {
    if lang == SpanishTag then LangPair("es", "en") else LangPair("en", "es")
  }

  /** The two cases are mirror images: every non-Spanish tag gets the pair of
      the Spanish tag reversed. */
  lemma CodesSwap(other: string)
    requires other != SpanishTag
    ensures TranslationCodes(other).source == TranslationCodes(SpanishTag).target
    ensures TranslationCodes(other).target == TranslationCodes(SpanishTag).source
  {
  }

  /** The request `translateText(text, lang)` sends. */
  function QueryFor(text: string, lang: string): (q: Query)
    ensures q.q == text
    ensures q.langpair.source != q.langpair.target
    ensures q.langpair == TranslationCodes(lang)
  {
    Query(text, TranslationCodes(lang))
  }

  /** The answer carries a truthy `responseData.translatedText`: present,
      not null and not the empty string. */
  predicate Delivered(reply: Reply)
  {
    && reply.Answered?
    && reply.responseData.Some?
    && reply.responseData.value.translatedText.Some?
    && reply.responseData.value.translatedText.value != ""
  }

  /** The text `translateText` resolves to for a given answer. Reading
      `translatedText` of a missing `responseData` throws and is caught, so
      it ends like a rejection; a falsy `translatedText` falls back through
      `||`. The HTTP status is never consulted. */
  function ReplyText(reply: Reply): (r: string)
    ensures Delivered(reply) ==> r == reply.responseData.value.translatedText.value
    ensures !Delivered(reply) ==> r == ErrorText
    ensures r != ""
  {
    match reply
    case Rejected => ErrorText
    case Answered(_, None) => ErrorText
    case Answered(_, Some(data)) =>
      match data.translatedText
      case None => ErrorText
      case Some(t) => if t != "" then t else ErrorText
  }

  /** `translateText(text, lang)` against an endpoint that answers each query
      with a reply: the translated text when the endpoint delivered one for
      the query of `text` along the pair of `lang`, the error text otherwise.
      It always yields a string; no failure escapes it. */
  function TranslateText(text: string, lang: string, endpoint: Query -> Reply): (r: string)
    ensures Delivered(endpoint(QueryFor(text, lang))) ==>
              r == endpoint(QueryFor(text, lang)).responseData.value.translatedText.value
    ensures !Delivered(endpoint(QueryFor(text, lang))) ==> r == ErrorText
  {
    ReplyText(endpoint(QueryFor(text, lang)))
  }

  /** Every way of failing ends in the same error text: a rejected fetch or
      parse, a body without `responseData`, a missing or null
      `translatedText`, and an empty `translatedText`. */
  lemma FailuresGiveErrorText(status: nat)
    ensures ReplyText(Rejected) == ErrorText
    ensures ReplyText(Answered(status, None)) == ErrorText
    ensures ReplyText(Answered(status, Some(ResponseData(None)))) == ErrorText
    ensures ReplyText(Answered(status, Some(ResponseData(Some(""))))) == ErrorText
  {
  }

  /** The status code plays no part: an answer with any status is read the
      same way as one with status 200. */
  lemma StatusIgnored(status: nat, data: Option<ResponseData>)
    ensures ReplyText(Answered(status, data)) == ReplyText(Answered(200, data))
  {
  }
}

=== FILE: wrappers.dfy ===
/** The optional-value datatype shared by the other modules. */
module Wrappers {

  /** A value that may be absent: the model's stand-in for JavaScript's
      `undefined`/`null` where the source reads a field that may be missing. */
  datatype Option<+T> = None | Some(value: T)
}
